=== FILE: README.md ===
# Cattle breed classifier dashboard: a Dafny model

This project models the decision logic of a cattle-breed classification web app
and proves properties about it. It covers three parts:

- **The dashboard page** (`frontend/script.js`). The page's state is one
  immutable `ClientState`: the camera flags, the current image, which parts of
  the page are visible, the texts of the result area, and the session analytics.
  Each event handler is a pure transition over that state:
  - the camera button (`toggleCamera`, `startCamera`, `stopCamera`);
  - the capture button (`captureImage`);
  - the file picker (`handleFile`);
  - the analyze button (its click guard and `predict`).

  Browser decisions arrive as parameters: camera permission, whether the canvas
  yields a blob, whether the file reader loads the file, and what `fetch` and
  `response.json()` produce. The session analytics (`updateAnalyticsAndLogs`)
  are a fold over the successful predictions. They track the classification
  count, the confidence sum, the per-breed counts in insertion order, the
  newest-first log, the most frequent breed and the average confidence.
- **The `/predict` endpoint** (`backend/app.py`, `classify_breed`). It is a pure
  decision from a request and abstract pipeline outcomes to a status and a JSON
  body. The outcomes are the inference result (or the exception it raised), the
  Grad-CAM outcome, and the breed-information database.
- **The classifier head** (`backend/model.py`, `build_model`): the bottleneck
  sizing rule and the layer widths. The backbone contributes only its feature
  width.

Confidences are whole numbers of hundredths of a percent: the value of
`(confidence * 100).toFixed(2)`. A server confidence of 0.8734 is `8734`, and
the page shows it as `87.34%`. No floating point is involved.

Modules: `Wrappers` (Option), `Decimal` (the two-decimal text of a confidence),
`Files` (the current image), `Analytics` (session counters and log), `Client`
(the page state machine), `Server` (the endpoint), `Head` (the classifier head)
and `Exchange` (the server's reply as the page reads it, linking the two sides).

## Behaviour worth knowing

- **Camera capture leaves nothing to analyse.** `captureImage` sets
  `currentFile` (frontend/script.js:201) and then calls `stopCamera` (line 210),
  which clears it again (line 180). The analyze button is shown (line 211), but
  its click guard (line 100) then does nothing.
  `Client.CaptureThenAnalyzeDoesNothing` states this behaviour.
- **Most-frequent tie-break.** The `reduce` at frontend/script.js:389 keeps the
  current candidate only when its count is strictly greater, so ties go to the
  breed inserted last. `Analytics.MostFrequent`,
  `Analytics.MostFrequentIsLastMaximal` and `Analytics.MostFrequentBreed` state
  this rule.
- **Stale responses.** Nothing checks whether a prediction response still
  belongs to the current image when it arrives (see Left out).
- **Unsavable filenames.** When `secure_filename` cleans a filename away
  entirely, the save path is the upload directory itself (backend/app.py:188-190).
  The save raises. The `finally` then calls `os.remove` on that existing
  directory (lines 239-240), which raises as well and replaces the JSON 500 the
  `except` was returning. The framework answers with its own error page, which
  is not JSON, and the page shows the browser's parse error.
  `Server.ClassifyBreed` and `Exchange.UnsavableNameShownAsParseError` state this.

## Model

| member | source | states |
|---|---|---|
| `Analytics.Record` | frontend/script.js:365-384 | one record adds exactly 1 to the count and the confidence to the sum; that breed's count (default 0) goes up by 1 and every other breed's count is unchanged; the new entry is at index 0 and the old log is the tail; a new breed is appended to the key order and an existing one keeps its place |
| `Analytics.RecordPreservesValid` | frontend/script.js:365-384 | recording keeps the session invariant: count equals log length, sum equals the sum of logged confidences, each breed's count equals its number of log entries, keys are distinct and cover the logged breeds, and the counts sum to the total |
| `Analytics.CountsSumToTotal` | frontend/script.js:366-371 | in a valid session the per-breed counts sum to the total, which equals the log length (read off the invariant that `Analytics.RecordPreservesValid` maintains) |
| `Analytics.ReplayValid` | frontend/script.js:62-65 | folding any sequence of classifications from the empty session gives a valid session after every prefix; the count is the number of classifications, the sum is the sum of their confidences, and the log lists them newest first |
| `Analytics.MostFrequent` | frontend/script.js:389 | the left-fold `reduce` returns a key with maximal count, and every key after it has a strictly smaller count |
| `Analytics.MostFrequentIsLastMaximal` | frontend/script.js:389 | among keys tied for the maximum, the `reduce` picks the last one inserted |
| `Analytics.MostFrequentBreed` | frontend/script.js:389 | no breed before the first record; afterwards a breed whose count no other breed exceeds, and no breed inserted after it has the same count |
| `Analytics.AverageConfidence` | frontend/script.js:367-368 | absent exactly while the count is 0; otherwise the nearest hundredth to sum/count, halves rounding up |
| `Analytics.ReplayAverageIsMean` | frontend/script.js:367-368 | after any non-empty sequence of classifications the average is the arithmetic mean of their confidences, to the nearest hundredth |
| `Analytics.AverageText` | frontend/script.js:368 | absent exactly while the count is 0; otherwise the two-decimal percent text of the average |
| `Analytics.JerseyExample` | frontend/script.js:365-389 | one Jersey classification at 87.34% gives count 1, one log entry, average "87.34%" and most frequent "Jersey" |
| `Analytics.MajorityExample` | frontend/script.js:389 | after A, A, B the most frequent breed is A |
| `Analytics.TieExample` | frontend/script.js:389 | after A, B the tie goes to B, the breed seen last |
| `Decimal.ParseFixed2Fixed2` | frontend/script.js:295 | the two-decimal text of a confidence reads back as the same number of hundredths |
| `Decimal.Fixed2Injective` | frontend/script.js:295 | different confidences never show the same text |
| `Decimal.Percent` | frontend/script.js:295-298 | the shown text ends in "%", what precedes it reads back as the confidence, and its integer part has no leading zero (only "0.xx%" starts with 0) |
| `Decimal.PercentExample` | frontend/script.js:295-298 | a confidence of 0.8734 shows as "87.34%" |
| `Client.Classify` | frontend/script.js:285-325 | success iff the response is ok, its body parses, and `breed` is a non-empty string; the breed, confidence, info and overlay are passed through; a network or JSON-parse failure carries its own message; other failures carry `error` if non-empty, else "Prediction failed" |
| `Client.FailureText` | frontend/script.js:320 | the failure message is the body's `error` when non-empty, else exactly "Prediction failed" |
| `Client.StopCamera` | frontend/script.js:158-183 | afterwards the camera is inactive with no stream, the video and capture button are hidden, the placeholder is shown, there is no current file, analyze and result are hidden, and results and analytics are unchanged |
| `Client.FieldText` | frontend/script.js:301-309 | a panel field shows the record's own text when it is non-empty, and "N/A" when the field is missing or empty |
| `Client.InfoText` | frontend/script.js:300-309 | the panel has nine texts, in label order, each the record's non-empty text for that label or "N/A" |
| `Client.StartCamera` | frontend/script.js:115-156 | a granted stream makes the camera active with that stream, the video shown and the preview hidden; a refusal changes nothing but the banner, which becomes the one camera-error message; in both cases only the camera flag, stream, video, capture button, preview, placeholder and banner can change, so the current file, analyze button, result area and analytics are kept |
| `Client.ToggleCamera` | frontend/script.js:107-113 | an active camera is stopped; an inactive one with no stream ends active iff access is granted |
| `Client.Capture` | frontend/script.js:185-220 | a no-op while the video is hidden; a failed blob only sets the capture-error banner; a captured blob ends with the camera released, the capture button hidden, the still previewed and the placeholder shown again by `stopCamera`, analyze shown, result hidden, the banner kept and no current file |
| `Client.HandleFile` | frontend/script.js:245-263 | no file is a no-op; a file becomes current and the camera ends inactive (an active one is stopped first); once read, the preview and analyze are shown and the result hidden; a file the reader never loads leaves the preview as it was and changes the placeholder, analyze button and result area only as stopping the camera does; the banner and results are unchanged |
| `Client.ShowOutcome` | frontend/script.js:293-325 | success shows breed and percent text, writes the panel texts and shows the panel only when info came (otherwise the panel is left as it was), replaces the overlay only with a non-empty one, and records the analytics; failure shows "Error" and the message and leaves overlay and analytics alone; nothing else changes |
| `Client.Analyze` | frontend/script.js:265-330 | the analyze click (guarded at line 100): with no current file it changes nothing; otherwise the result area ends visible with loader hidden and content shown, the camera, current file, preview, placeholder and banner are unchanged and only the result area's fields change, and the analytics are recorded on success and untouched on failure; on success the panel texts and overlay are replaced only when the reply carries info or a non-empty overlay, and on failure both are kept |
| `Client.Step` | frontend/script.js:96-104 | the page's listeners dispatch each event to its handler (the camera button to the toggle, the capture button of line 144 to the capture, the file input to the upload, the analyze button to the analysis); an analyze click without a current file and a file dialog closed without a file change nothing, and no event but an analysis touches the analytics |
| `Client.StepPreservesWf` | frontend/script.js:100-263 | every handler keeps the camera flag, the stream, the video and the capture button in agreement, and keeps the analytics valid |
| `Client.RunPreservesWf` | frontend/script.js:100-263 | every sequence of events from a well-formed page ends well-formed |
| `Client.AnalyticsChangeOnlyOnSuccess` | frontend/script.js:293-321 | an event changes the analytics iff it is an analysis with a current file that succeeds, and then the count rises by 1 |
| `Client.RunCountsSuccesses` | frontend/script.js:365-384 | along any run the count grows by exactly the number of successful analyses, and the log length stays equal to the count |
| `Client.StopCameraIdempotent` | frontend/script.js:158-183 | stopping the camera twice is the same as stopping it once |
| `Client.RepeatedRefusalOneBanner` | frontend/script.js:222-236 | repeated camera refusals leave the same single banner as one refusal |
| `Client.CaptureThenAnalyzeDoesNothing` | frontend/script.js:199-212 | after a successful capture the analyze button is shown but there is no current file, so an analyze click leaves the page unchanged |
| `Client.ChosenFileIsAnalyzed` | frontend/script.js:245-252 | a chosen file stays current even if a camera was running, and the next successful analysis logs that file |
| `Client.UploadAndAnalyzeExample` | frontend/script.js:245-330 | upload, analyze, and a Jersey reply at 0.8734 show "Jersey" and "87.34%", count 1, average "87.34%" and one log entry |
| `Client.ServiceErrorExample` | frontend/script.js:319-325 | a 500 reply with `error` "model unavailable" shows "Error" and exactly that message, and the analytics do not change |
| `Client.CameraCaptureExample` | frontend/script.js:107-220 | camera on, then capture: the camera is released, the still previewed, analyze offered, and no image current |
| `Server.ClassifyBreed` | backend/app.py:177-240 | no `file` part gives 400 "No file uploaded" whatever else holds; an empty filename gives 400 "Empty filename"; a name that `secure_filename` empties gives a 500 whose body is the framework's non-JSON error page; otherwise a pipeline exception gives a JSON 500 with its message; status 200 iff the request passes both checks, the cleaned name is non-empty and inference succeeds, with breed, confidence and database-or-default info; `gradcam` is present iff a non-empty overlay was produced |
| `Server.InfoFor` | backend/app.py:217-221 | the database record for a known breed, else the fixed default record |
| `Server.OverlayOf` | backend/app.py:200-214 | an overlay is sent iff Grad-CAM produced a non-empty encoding |
| `Server.HeatmapOnlyDecidesOverlay` | backend/app.py:199-233 | two Grad-CAM outcomes give the same status and the same body apart from `gradcam`, so a Grad-CAM failure never becomes an error response |
| `Server.UnknownBreedGetsDefault` | backend/app.py:217-221 | an unknown breed gets info with origin "N/A" and exactly the three default keys |
| `Head.DefaultBottleneck` | backend/model.py:16-17 | the default width lies in [128, 512]; it is 128 below 16 classes, 8 per class from 16 to 64, and 512 above 64 |
| `Head.DefaultBottleneckMonotone` | backend/model.py:17 | more classes never give a narrower default bottleneck |
| `Head.DefaultClassesBottleneck` | backend/model.py:12-17 | the default of 41 classes gives a bottleneck of 328 |
| `Head.BottleneckWidth` | backend/model.py:16-17 | an explicit bottleneck is used unchanged and unclamped; an omitted one is the clamped default `Head.DefaultBottleneck`, eight units per class within [128, 512] |
| `Head.BuildHead` | backend/model.py:19-25 | five layers: a linear layer from the backbone's width to the bottleneck, batch norm over the bottleneck, ReLU, dropout at 40 percent, and a linear layer from the bottleneck to the classes |
| `Head.HeadShape` | backend/model.py:19-25 | the head accepts exactly the backbone's feature width, maps it to the bottleneck, and outputs one score per class |
| `Exchange.BodyOf` | backend/app.py:179-240 | `response.json()` of each reply: a JSON error reads as a body with only `error`, a JSON prediction as breed, confidence, info and optional overlay, and the framework's error page fails to parse with the browser's message |
| `Exchange.Deliver` | frontend/script.js:287-290 | `response.ok` holds iff the status is 2xx, and `response.json()` yields a body iff the server sent JSON rather than the framework's error page |
| `Exchange.SuccessAgrees` | frontend/script.js:287-293 | the page treats a reply as a success iff the server accepted the request, inference succeeded, and the breed label is non-empty |
| `Exchange.ServerErrorShownOnPage` | backend/app.py:235-237 | any non-200 reply shows the server's `error` text, or "Prediction failed" when it is empty, or the browser's parse error when the reply is the framework's error page, and records nothing |
| `Exchange.UnsavableNameShownAsParseError` | backend/app.py:186-240 | an upload whose name `secure_filename` cleans away entirely shows "Error" and the browser's JSON parse error on the page, never a server message, and records nothing |
| `Exchange.MissingFileShownOnPage` | backend/app.py:179-180 | a request without a file part makes the page show "No file uploaded" |
| `Exchange.ServerSuccessRecordedOnPage` | frontend/script.js:293-318 | a server classification is shown and recorded as sent; the panel holds the server's info record, and the overlay is replaced exactly when one was sent |
| `Exchange.PanelAllNA` | frontend/script.js:300-309 | a record that gives no panel field a text of its own shows "N/A" in all nine fields |
| `Exchange.UnknownBreedPanelAllNA` | backend/app.py:217-221 | for a breed the database does not know, all nine panel fields read "N/A" |

## Left out

- Login page, navigation, profile and `sessionStorage` (`setupLoginPage`, nav handlers, `loadProfileData`): page glue with no decision logic.
- Rendering is not modelled: `renderLogs`, the DOM insertion in `showGradCAM` (modelled only as the overlay slot being replaced), and `renderAnalytics` with its charts and mock weekly series. The banner's 5-second removal timer is also left out; the banner stays until another message replaces it.
- Browser APIs are parameters rather than models. `getUserMedia` becomes `CameraAccess`, canvas `toBlob` the `frame` flag, `FileReader` the `readable` flag, and `fetch`/`response.json()` the `Reply`. `Date().toLocaleTimeString()` becomes the `timestamp` argument. For `URL.createObjectURL`, the log entry holds the `File` itself.
- Interleavings of the asynchronous handlers are left out; each handler runs to completion as one transition. This covers stale prediction responses after the image changed (the code has no guard), a second camera click while `getUserMedia` is pending, and a `toBlob` callback or file-reader load that runs after other events.
- With an interleaving, the log thumbnail is taken from `currentFile` when the response arrives. If `currentFile` was cleared meanwhile, `URL.createObjectURL(null)` throws after the counters were already bumped. This is outside the one-transition model.
- `predict`'s own "no image data" guard is not modelled separately: the click guard makes it unreachable.
- The `beforeunload` handler, which stops the tracks on page teardown, is not modelled.
- Floating point is not modelled. Confidences are exact hundredths, a body without a `confidence` (a NaN on the page) is outside the model, and error accumulated in the float confidence sum is not represented.
- Analytics.AverageConfidence: rounds the exact quotient half up, as `toFixed` specifies for exact values; it does not model `toFixed` applied to the binary double `confidenceSum / totalClassifications`, which can round a near-half differently.
- Breed labels are taken to be ordinary object keys in insertion order. Integer-like labels, which JavaScript lists first, and prototype property names such as `constructor`, whose `|| 0` default misbehaves, are not modelled.
- JSON values are simplified. Reply fields that are not strings are outside the model, a `null` body is treated as an unreadable reply (its property access throws), and `info` fields are taken as strings.
- The page elements are taken to exist. A missing element, such as `.upload-area`, would throw inside `startCamera` after the stream was acquired.
- The camera button's label, and the difference between creating and un-hiding the capture button, are collapsed into the camera flag and `captureShown`.
- `index.html` is not part of this model. The initial state `Client.Initial` assumes the camera is off, the placeholder is shown and everything else is hidden.
- On the backend, saving the upload, `secure_filename`, image decoding, `predict`, the removal of the file in `finally`, and `generate_gradcam`, `create_gradcam_overlay` and `image_to_base64` are abstract outcomes (`Inference`, `Heatmap`). `secure_filename` is a parameter of `Server.ClassifyBreed`, and an empty result leads to the framework's error page as described above. Flask routing, CORS and static routes are plumbing.
- Server.ClassifyBreed: failures of the `finally` cleanup other than the unsavable-name case (a saved file that cannot be removed, say) are not modelled; every other exception is a JSON 500 with its message. The text of the framework's error page and the browser's parse message are not modelled; the latter is the `parseError` parameter of `Exchange.Deliver`.
- `backend/model_loader.py`, `backend/train.py` and `backend/dataset.py` are left out: they hold model loading, inference, training and data loading, which are all library numerics.
- In `backend/model.py`, the timm backbone creation and `ModelWrapper.forward` are left out; the backbone enters only as its feature width. Widths are natural numbers, so the tensor library's rejection of negative widths is not modelled. Dropout 0.4 appears as 40 percent.

=== FILE: analytics.dfy ===
/** Session analytics and the session log: the page-lifetime counters the
    dashboard folds every successful prediction into.

    A `Session` holds the four pieces of state the page keeps: the number of
    classifications, the running sum of confidences (hundredths of a percent),
    the per-breed counts together with the order in which the breeds were first
    seen (the key order of a JavaScript object), and the log, newest first. */
module Analytics {
  import opened Wrappers
  import opened Files
  import Decimal

  datatype LogEntry = LogEntry(breed: string, confidence: nat, timestamp: string, image: File)

  datatype Session = Session(
    total: nat,
    confidenceSum: nat,
    breedCounts: map<string, nat>,
    breedOrder: seq<string>,
    logs: seq<LogEntry>)

  const Empty: Session := Session(0, 0, map[], [], [])

  /** `breedCounts[breed] || 0`: a breed never seen counts as zero. */
  function CountOf(s: Session, breed: string): nat {
    if breed in s.breedCounts then s.breedCounts[breed] else 0
  }

  /** Records one successful classification. */
  function Record(s: Session, breed: string, confidence: nat, timestamp: string, image: File): (r: Session)
    ensures r.total == s.total + 1
    ensures r.confidenceSum == s.confidenceSum + confidence
    ensures CountOf(r, breed) == CountOf(s, breed) + 1
    ensures forall b :: b != breed ==> CountOf(r, b) == CountOf(s, b)
    ensures |r.logs| == |s.logs| + 1
    ensures r.logs[0] == LogEntry(breed, confidence, timestamp, image)
    ensures r.logs[1..] == s.logs
    ensures breed in s.breedCounts ==> r.breedOrder == s.breedOrder
    ensures breed !in s.breedCounts ==> r.breedOrder == s.breedOrder + [breed]
  {
    var order := if breed in s.breedCounts then s.breedOrder else s.breedOrder + [breed];
    var logs := [LogEntry(breed, confidence, timestamp, image)] + s.logs;
    assert logs[1..] == s.logs;
    Session(s.total + 1, s.confidenceSum + confidence,
            s.breedCounts[breed := CountOf(s, breed) + 1], order, logs)
  }

  // ---------------------------------------------------------------------------
  // What the counters mean, stated over the log

  /** How many log entries name `breed`. */
  function Occurrences(logs: seq<LogEntry>, breed: string): nat {
    if |logs| == 0 then 0
    else (if logs[0].breed == breed then 1 else 0) + Occurrences(logs[1..], breed)
  }

  function SumConfidence(logs: seq<LogEntry>): nat {
    if |logs| == 0 then 0 else logs[0].confidence + SumConfidence(logs[1..])
  }

  predicate Distinct(keys: seq<string>) {
    forall i, j :: 0 <= i < j < |keys| ==> keys[i] != keys[j]
  }

  /** The sum of the counts of `keys`, taken in key order. */
  function SumCounts(keys: seq<string>, counts: map<string, nat>): nat
    requires forall i :: 0 <= i < |keys| ==> keys[i] in counts
  {
    if |keys| == 0 then 0
    else SumCounts(keys[..|keys| - 1], counts) + counts[keys[|keys| - 1]]
  }

  /** The session invariant: every counter agrees with the log. */
  ghost predicate Valid(s: Session) {
    && s.total == |s.logs|
    && s.confidenceSum == SumConfidence(s.logs)
    && Distinct(s.breedOrder)
    && (forall b :: b in s.breedCounts <==> b in s.breedOrder)
    && (forall b :: b in s.breedCounts ==> s.breedCounts[b] == Occurrences(s.logs, b))
    && (forall i :: 0 <= i < |s.logs| ==> s.logs[i].breed in s.breedCounts)
    && SumCounts(s.breedOrder, s.breedCounts) == s.total
  }

  lemma {:induction false} OccurrencesAbsent(logs: seq<LogEntry>, breed: string)
    requires forall i :: 0 <= i < |logs| ==> logs[i].breed != breed
    ensures Occurrences(logs, breed) == 0
    decreases |logs|
  {
    if |logs| > 0 {
      OccurrencesAbsent(logs[1..], breed);
    }
  }

  lemma EmptyValid()
    ensures Valid(Empty)
  {
  }

  /** Counts of keys outside the changed one do not move the sum. */
  lemma {:induction false} SumCountsFrame(keys: seq<string>, counts: map<string, nat>, counts': map<string, nat>)
    requires forall i :: 0 <= i < |keys| ==> keys[i] in counts && keys[i] in counts'
    requires forall i :: 0 <= i < |keys| ==> counts[keys[i]] == counts'[keys[i]]
    ensures SumCounts(keys, counts) == SumCounts(keys, counts')
    decreases |keys|
  {
    if |keys| > 0 {
      SumCountsFrame(keys[..|keys| - 1], counts, counts');
    }
  }

  /** Bumping the count of one listed key by one bumps the sum by one. */
  lemma {:induction false} SumCountsBump(keys: seq<string>, counts: map<string, nat>, breed: string)
    requires Distinct(keys)
    requires forall i :: 0 <= i < |keys| ==> keys[i] in counts
    requires breed in keys
    ensures SumCounts(keys, counts[breed := counts[breed] + 1]) == SumCounts(keys, counts) + 1
    decreases |keys|
  {
    var bumped := counts[breed := counts[breed] + 1];
    var front := keys[..|keys| - 1];
    if keys[|keys| - 1] == breed {
      forall i | 0 <= i < |front|
        ensures front[i] != breed
      {
        assert front[i] == keys[i];
      }
      SumCountsFrame(front, counts, bumped);
    } else {
      assert breed in front by {
        var i :| 0 <= i < |keys| && keys[i] == breed;
        assert i < |keys| - 1;
        assert front[i] == breed;
      }
      SumCountsBump(front, counts, breed);
    }
  }

  lemma RecordCountsMatchLog(s: Session, breed: string, confidence: nat, timestamp: string, image: File)
    requires Valid(s)
    ensures var r := Record(s, breed, confidence, timestamp, image);
            forall b :: b in r.breedCounts ==> r.breedCounts[b] == Occurrences(r.logs, b)
  {
    var r := Record(s, breed, confidence, timestamp, image);
    forall b | b in r.breedCounts
      ensures r.breedCounts[b] == Occurrences(r.logs, b)
    {
      assert Occurrences(r.logs, b) == (if b == breed then 1 else 0) + Occurrences(s.logs, b);
      if b == breed && breed !in s.breedCounts {
        OccurrencesAbsent(s.logs, breed);
      }
    }
  }

  lemma RecordSumCounts(s: Session, breed: string, confidence: nat, timestamp: string, image: File)
    requires Valid(s)
    ensures var r := Record(s, breed, confidence, timestamp, image);
            && (forall i :: 0 <= i < |r.breedOrder| ==> r.breedOrder[i] in r.breedCounts)
            && SumCounts(r.breedOrder, r.breedCounts) == r.total
  {
    var r := Record(s, breed, confidence, timestamp, image);
    if breed in s.breedCounts {
      SumCountsBump(s.breedOrder, s.breedCounts, breed);
    } else {
      assert r.breedOrder[..|r.breedOrder| - 1] == s.breedOrder;
      SumCountsFrame(s.breedOrder, s.breedCounts, r.breedCounts);
    }
  }

  /** Recording keeps every counter in agreement with the log. */
  lemma RecordPreservesValid(s: Session, breed: string, confidence: nat, timestamp: string, image: File)
    requires Valid(s)
    ensures Valid(Record(s, breed, confidence, timestamp, image))
  {
    var r := Record(s, breed, confidence, timestamp, image);
    assert r.logs == [r.logs[0]] + s.logs;
    assert SumConfidence(r.logs) == confidence + SumConfidence(s.logs);
    RecordCountsMatchLog(s, breed, confidence, timestamp, image);
    RecordSumCounts(s, breed, confidence, timestamp, image);
    forall i | 0 <= i < |r.logs|
      ensures r.logs[i].breed in r.breedCounts
    {
      if i > 0 {
        assert r.logs[i] == s.logs[i - 1];
      }
    }
    assert Distinct(r.breedOrder);
  }

  /** Whatever the session so far, the per-breed counts add up to the total.
      Both facts are conjuncts of `Valid`; this reads them off for callers, and
      `RecordPreservesValid` is where they are established. */
  lemma CountsSumToTotal(s: Session)
    requires Valid(s)
    ensures SumCounts(s.breedOrder, s.breedCounts) == s.total == |s.logs|
  {
  }

  // ---------------------------------------------------------------------------
  // A session as a fold over the successful classifications, oldest first

  function Replay(entries: seq<LogEntry>): Session
    decreases |entries|
  {
    if |entries| == 0 then Empty
    else
      var last := entries[|entries| - 1];
      Record(Replay(entries[..|entries| - 1]), last.breed, last.confidence, last.timestamp, last.image)
  }

  function Reverse<T>(xs: seq<T>): (r: seq<T>)
    ensures |r| == |xs|
    ensures forall i :: 0 <= i < |xs| ==> r[i] == xs[|xs| - 1 - i]
  {
    if |xs| == 0 then [] else [xs[|xs| - 1]] + Reverse(xs[..|xs| - 1])
  }

  function SumOf(entries: seq<LogEntry>): nat {
    if |entries| == 0 then 0 else SumOf(entries[..|entries| - 1]) + entries[|entries| - 1].confidence
  }

  /** After every prefix of the classifications the invariant holds, the count is
      the number of classifications, the sum is the sum of their confidences, and
      the log lists them newest first. */
  lemma {:induction false} ReplayValid(entries: seq<LogEntry>)
    ensures Valid(Replay(entries))
    ensures Replay(entries).total == |entries|
    ensures Replay(entries).confidenceSum == SumOf(entries)
    ensures Replay(entries).logs == Reverse(entries)
    decreases |entries|
  {
    if |entries| == 0 {
      EmptyValid();
    } else {
      var front := entries[..|entries| - 1];
      var last := entries[|entries| - 1];
      ReplayValid(front);
      RecordPreservesValid(Replay(front), last.breed, last.confidence, last.timestamp, last.image);
    }
  }

  // ---------------------------------------------------------------------------
  // Derived figures: most frequent breed and average confidence

  /** `keys.reduce((a, b) => counts[a] > counts[b] ? a : b)`, folding from the left.
      The result has a maximal count, and no key after it has an equal one, so
      among tied keys the one inserted last wins. */
  function MostFrequent(keys: seq<string>, counts: map<string, nat>): (r: string)
    requires |keys| > 0
    requires forall i :: 0 <= i < |keys| ==> keys[i] in counts
    ensures r in counts
    ensures forall i :: 0 <= i < |keys| ==> counts[keys[i]] <= counts[r]
    ensures exists i :: 0 <= i < |keys| && keys[i] == r
                      && forall j :: i < j < |keys| ==> counts[keys[j]] < counts[r]
    decreases |keys|
  {
    if |keys| == 1 then keys[0]
    else
      var best := MostFrequent(keys[..|keys| - 1], counts);
      var next := keys[|keys| - 1];
      if counts[best] > counts[next] then best else next
  }

  /** Among keys tied for the maximum, the last one inserted is chosen. */
  lemma MostFrequentIsLastMaximal(keys: seq<string>, counts: map<string, nat>, j: nat)
    requires Distinct(keys)
    requires forall i :: 0 <= i < |keys| ==> keys[i] in counts
    requires j < |keys|
    requires forall i :: 0 <= i < |keys| ==> counts[keys[i]] <= counts[keys[j]]
    requires forall k :: j < k < |keys| ==> counts[keys[k]] < counts[keys[j]]
    ensures MostFrequent(keys, counts) == keys[j]
  {
    var r := MostFrequent(keys, counts);
    var i :| 0 <= i < |keys| && keys[i] == r && forall k :: i < k < |keys| ==> counts[keys[k]] < counts[r];
    assert counts[keys[i]] == counts[keys[j]];
    assert i == j;
  }

  /** The breed shown as most frequent; none before the first classification. */
  function MostFrequentBreed(s: Session): (r: Option<string>)
    requires forall i :: 0 <= i < |s.breedOrder| ==> s.breedOrder[i] in s.breedCounts
    ensures r.None? <==> |s.breedOrder| == 0
    ensures r.Some? ==> r.value in s.breedCounts
    ensures r.Some? ==> forall i :: 0 <= i < |s.breedOrder| ==> s.breedCounts[s.breedOrder[i]] <= s.breedCounts[r.value]
    ensures r.Some? ==> exists i :: 0 <= i < |s.breedOrder| && s.breedOrder[i] == r.value
                                  && forall j :: i < j < |s.breedOrder| ==>
                                       s.breedCounts[s.breedOrder[j]] < s.breedCounts[r.value]
  {
    if |s.breedOrder| == 0 then None else Some(MostFrequent(s.breedOrder, s.breedCounts))
  }

  /** The average confidence in hundredths, rounded to the nearest with halves
      going up (`toFixed` picks the larger of two equally near candidates);
      absent until something has been recorded. */
  function AverageConfidence(s: Session): (r: Option<nat>)
    ensures r.None? <==> s.total == 0
    ensures r.Some? ==> 2 * r.value * s.total <= 2 * s.confidenceSum + s.total
    ensures r.Some? ==> 2 * s.confidenceSum + s.total < 2 * r.value * s.total + 2 * s.total
  {
    if s.total == 0 then None
    else
      var d := 2 * s.total;
      var q := (2 * s.confidenceSum + s.total) / d;
      assert q * d <= 2 * s.confidenceSum + s.total < q * d + d;
      Some(q)
  }

  /** After any non-empty sequence of classifications, the average shown is the
      arithmetic mean of their confidences, to the nearest hundredth. */
  lemma ReplayAverageIsMean(entries: seq<LogEntry>)
    requires |entries| > 0
    ensures AverageConfidence(Replay(entries)).Some?
    ensures var a := AverageConfidence(Replay(entries)).value;
            var n := |entries|;
            && 2 * a * n <= 2 * SumOf(entries) + n
            && 2 * SumOf(entries) + n < 2 * a * n + 2 * n
  {
    ReplayValid(entries);
  }

  /** The text the dashboard shows for the average, e.g. `87.34%`. */
  function AverageText(s: Session): (r: Option<string>)
    ensures r.None? <==> s.total == 0
    ensures r.Some? ==> r.value == Decimal.Percent(AverageConfidence(s).value)
  {
    match AverageConfidence(s)
    case None => None
    case Some(a) => Some(Decimal.Percent(a))
  }

  // ---------------------------------------------------------------------------
  // Worked sessions

  /** One classification of Jersey at 87.34%: one log entry, count one, average 87.34%. */
  lemma JerseyExample(timestamp: string, image: File)
    ensures var s := Record(Empty, "Jersey", 8734, timestamp, image);
            && s.total == 1
            && s.logs == [LogEntry("Jersey", 8734, timestamp, image)]
            && AverageText(s) == Some("87.34%")
            && MostFrequentBreed(s) == Some("Jersey")
  {
    var s := Record(Empty, "Jersey", 8734, timestamp, image);
    assert AverageConfidence(s) == Some(8734);
    Decimal.PercentExample();
  }

  /** A, A, B: A is the most frequent. */
  lemma MajorityExample(t: string, image: File)
    ensures var s := Record(Record(Record(Empty, "A", 0, t, image), "A", 0, t, image), "B", 0, t, image);
            MostFrequentBreed(s) == Some("A")
  {
    var s1 := Record(Empty, "A", 0, t, image);
    var s2 := Record(s1, "A", 0, t, image);
    var s3 := Record(s2, "B", 0, t, image);
    assert s3.breedOrder == ["A", "B"];
    assert s3.breedCounts["A"] == 2 && s3.breedCounts["B"] == 1;
  }

  /** A, B: a tie, which goes to B, the breed seen last. */
  lemma TieExample(t: string, image: File)
    ensures var s := Record(Record(Empty, "A", 0, t, image), "B", 0, t, image);
            MostFrequentBreed(s) == Some("B")
  {
    var s1 := Record(Empty, "A", 0, t, image);
    var s2 := Record(s1, "B", 0, t, image);
    assert s2.breedOrder == ["A", "B"];
    assert s2.breedCounts["A"] == 1 && s2.breedCounts["B"] == 1;
  }
}

=== FILE: client.dfy ===
/** The dashboard page's classifier logic, apart from the DOM.

    `ClientState` is the page's mutable state: the camera flags, the current
    file, which parts of the page are visible, the texts of the result area and
    the session analytics. Every event handler is a pure transition over it.
    What the browser decides (camera permission, whether the canvas yields a
    blob, whether the file reader loads the file, what `fetch` returns) arrives
    as a parameter. */
module Client {
  import opened Wrappers
  import opened Files
  import Analytics
  import Decimal

  /** An open camera stream; its identity is all the model needs. */
  datatype Stream = Stream(id: nat)

  /** What `getUserMedia` does with the request. */
  datatype CameraAccess = Granted(stream: Stream) | Refused

  /** The fields of a `/predict` reply body that the page reads. Values that are
      not strings are outside the model; the confidence is in hundredths of a
      percent, i.e. already `(confidence * 100).toFixed(2)`. */
  datatype ReplyBody = ReplyBody(
    breed: Option<string>,
    confidence: nat,
    info: Option<map<string, string>>,
    gradcam: Option<string>,
    error: Option<string>)

  /** Reading the body: `response.json()` either throws (with a message) or yields the body. */
  datatype BodyOutcome = Unreadable(message: string) | Parsed(json: ReplyBody)

  /** What `fetch` does: rejects with a message, or delivers a response whose
      `ok` flag and body are given. */
  datatype Reply = NetworkFailure(message: string) | Received(ok: bool, body: BodyOutcome)

  /** The outcome of one analysis as the page understands it. */
  datatype Prediction =
    | Predicted(breed: string, confidence: nat, info: Option<map<string, string>>, gradcam: Option<string>)
    | PredictionFailed(message: string)

  const GenericFailure: string := "Prediction failed"
  const ErrorHeading: string := "Error"
  const CameraUnavailable: string := "Camera access denied or not available"
  const CaptureFailed: string := "Failed to capture image"

  /** JavaScript truthiness of an optional string: present and non-empty. */
  predicate Truthy(v: Option<string>) {
    v.Some? && v.value != ""
  }

  /** The message of the error thrown for a readable but unsuccessful reply. */
  function FailureText(error: Option<string>): (t: string)
    ensures t != ""
    ensures Truthy(error) ==> t == error.value
    ensures !Truthy(error) ==> t == GenericFailure
  {
    if Truthy(error) then error.value else GenericFailure
  }

  /** The success/failure decision of `predict`. */
  function Classify(reply: Reply): (p: Prediction)
    ensures p.Predicted? <==> reply.Received? && reply.ok && reply.body.Parsed? && Truthy(reply.body.json.breed)
    ensures p.Predicted? ==>
              && p.breed != ""
              && Some(p.breed) == reply.body.json.breed
              && p.confidence == reply.body.json.confidence
              && p.info == reply.body.json.info
              && p.gradcam == reply.body.json.gradcam
    ensures reply.NetworkFailure? ==> p == PredictionFailed(reply.message)
    ensures reply.Received? && reply.body.Unreadable? ==> p == PredictionFailed(reply.body.message)
    ensures reply.Received? && reply.body.Parsed? && p.PredictionFailed? ==>
              p.message == FailureText(reply.body.json.error)
  {
    match reply
    case NetworkFailure(m) => PredictionFailed(m)
    case Received(ok, Unreadable(m)) => PredictionFailed(m)
    case Received(ok, Parsed(json)) =>
      if ok && Truthy(json.breed)
      then Predicted(json.breed.value, json.confidence, json.info, json.gradcam)
      else PredictionFailed(FailureText(json.error))
  }

  /** The labels of the breed-information panel, in display order. */
  const InfoFields: seq<string> := ["origin", "type", "milk_production", "milk_fat_snf",
    "fertility_calving", "feeding_needs", "disease_resistance", "temperament", "economic_factors"]

  /** `info.<field> || 'N/A'`. */
  function FieldText(info: map<string, string>, field: string): (t: string)
    ensures t != ""
    ensures field in info && info[field] != "" ==> t == info[field]
    ensures !(field in info && info[field] != "") ==> t == "N/A"
  {
    if field in info && info[field] != "" then info[field] else "N/A"
  }

  /** The texts of the breed-information panel for `fields`, in order. */
  function FieldTexts(info: map<string, string>, fields: seq<string>): (r: seq<string>)
    ensures |r| == |fields|
    ensures forall i :: 0 <= i < |r| ==> r[i] == FieldText(info, fields[i])
  {
    if |fields| == 0 then [] else [FieldText(info, fields[0])] + FieldTexts(info, fields[1..])
  }

  /** The nine texts of the breed-information panel: each field's own text when
      it has a non-empty one, "N/A" otherwise. */
  function InfoText(info: map<string, string>): (r: seq<string>)
    ensures |r| == |InfoFields| == 9
    ensures forall i :: 0 <= i < |r| && InfoFields[i] in info && info[InfoFields[i]] != "" ==>
              r[i] == info[InfoFields[i]]
    ensures forall i :: 0 <= i < |r| && !(InfoFields[i] in info && info[InfoFields[i]] != "") ==>
              r[i] == "N/A"
  {
    FieldTexts(info, InfoFields)
  }

  /** The page's state. The breed panel's nine texts are `InfoText` of
      `panelInfo`, the record last written into it. */
  datatype ClientState = ClientState(
    cameraActive: bool,
    stream: Option<Stream>,
    videoShown: bool,
    captureShown: bool,
    previewShown: bool,
    placeholderShown: bool,
    currentFile: Option<File>,
    analyzeShown: bool,
    resultShown: bool,
    loaderShown: bool,
    contentShown: bool,
    infoShown: bool,
    breedText: string,
    confidenceText: string,
    panelInfo: Option<map<string, string>>,
    overlay: Option<string>,
    banner: Option<string>,
    analytics: Analytics.Session)

  /** The page as loaded: camera off, placeholder showing, everything else hidden. */
  const Initial: ClientState := ClientState(
    false, None, false, false, false, true, None, false, false, false, false, false,
    "", "", None, None, None, Analytics.Empty)

  /** The camera flag, the stream, the video and the capture button agree, and the
      analytics agree with the log. */
  ghost predicate Wf(s: ClientState) {
    CameraAgrees(s) && Analytics.Valid(s.analytics)
  }

  /** The result texts, the overlay and the analytics are those of `s`. */
  predicate SameResults(s: ClientState, r: ClientState) {
    && r.breedText == s.breedText
    && r.confidenceText == s.confidenceText
    && r.panelInfo == s.panelInfo
    && r.overlay == s.overlay
    && r.analytics == s.analytics
  }

  // ---------------------------------------------------------------------------
  // Camera

  /** `stopCamera`: releases the stream and returns the page to "no image". */
  function StopCamera(s: ClientState): (r: ClientState)
    ensures !r.cameraActive && r.stream.None? && !r.videoShown && !r.captureShown
    ensures r.placeholderShown
    ensures r.currentFile.None? && !r.analyzeShown && !r.resultShown
    ensures r.previewShown == s.previewShown && r.banner == s.banner
    ensures SameResults(s, r)
  {
    s.(stream := None, videoShown := false, placeholderShown := true, captureShown := false,
       cameraActive := false, currentFile := None, analyzeShown := false, resultShown := false)
  }

  /** `startCamera`: the camera becomes active only once the stream is granted;
      a refusal leaves the camera as it was and raises the one error banner. */
  function StartCamera(s: ClientState, access: CameraAccess): (r: ClientState)
    ensures access.Granted? ==>
              && r.cameraActive && r.stream == Some(access.stream)
              && r.videoShown && r.captureShown
              && !r.previewShown && !r.placeholderShown
              && r.banner == s.banner
    ensures access.Refused? ==>
              && r.cameraActive == s.cameraActive && r.stream == s.stream
              && r.videoShown == s.videoShown && r.captureShown == s.captureShown
              && r.previewShown == s.previewShown && r.placeholderShown == s.placeholderShown
              && r.banner == Some(CameraUnavailable)
    ensures r.currentFile == s.currentFile && r.analyzeShown == s.analyzeShown
    ensures r.resultShown == s.resultShown
    ensures SameResults(s, r)
    ensures r == s.(cameraActive := r.cameraActive, stream := r.stream, videoShown := r.videoShown,
                    captureShown := r.captureShown, previewShown := r.previewShown,
                    placeholderShown := r.placeholderShown, banner := r.banner)
  {
    match access
    case Granted(st) =>
      s.(stream := Some(st), videoShown := true, previewShown := false, placeholderShown := false,
         cameraActive := true, captureShown := true)
    case Refused => s.(banner := Some(CameraUnavailable))
  }

  /** The camera button. */
  function ToggleCamera(s: ClientState, access: CameraAccess): (r: ClientState)
    ensures s.cameraActive ==> r == StopCamera(s)
    ensures !s.cameraActive ==> r == StartCamera(s, access)
    ensures s.cameraActive ==> !r.cameraActive
    ensures !s.cameraActive && s.stream.None? ==> (r.cameraActive <==> access.Granted?)
  {
    if s.cameraActive then StopCamera(s) else StartCamera(s, access)
  }

  /** `captureImage` with the canvas conversion's outcome (`frame` is whether a blob
      was produced). The capture stores the file, then stops the camera, which
      clears it again; the analyze button is shown regardless. */
  function Capture(s: ClientState, frame: bool): (r: ClientState)
    ensures !s.videoShown ==> r == s
    ensures s.videoShown && frame ==>
              && !r.cameraActive && r.stream.None? && !r.videoShown
              && !r.captureShown && r.previewShown && r.placeholderShown
              && r.analyzeShown && !r.resultShown
              && r.currentFile.None? && r.banner == s.banner
              && SameResults(s, r)
    ensures s.videoShown && !frame ==> r == s.(banner := Some(CaptureFailed))
  {
    if !s.videoShown then s
    else if frame then
      var captured := s.(currentFile := Some(CapturedFile), previewShown := true, videoShown := false);
      StopCamera(captured).(analyzeShown := true, resultShown := false)
    else s.(banner := Some(CaptureFailed))
  }

  // ---------------------------------------------------------------------------
  // Upload

  /** `handleFile`, with whether the file reader managed to load the file. An
      active camera is stopped first, so the chosen file is what stays current. */
  function HandleFile(s: ClientState, file: Option<File>, readable: bool): (r: ClientState)
    ensures file.None? ==> r == s
    ensures file.Some? ==> r.currentFile == file && !r.cameraActive
    ensures file.Some? && !s.cameraActive ==>
              r.stream == s.stream && r.videoShown == s.videoShown && r.captureShown == s.captureShown
    ensures file.Some? && s.cameraActive ==> r.stream.None? && !r.videoShown && !r.captureShown
    ensures file.Some? && readable ==>
              && r.previewShown && !r.placeholderShown
              && r.analyzeShown && !r.resultShown
    ensures file.Some? && !readable ==>
              && r.previewShown == s.previewShown
              && r.placeholderShown == (s.placeholderShown || s.cameraActive)
              && r.analyzeShown == (s.analyzeShown && !s.cameraActive)
              && r.resultShown == (s.resultShown && !s.cameraActive)
    ensures file.Some? ==> r.banner == s.banner
    ensures SameResults(s, r)
  {
    match file
    case None => s
    case Some(f) =>
      var stopped := if s.cameraActive then StopCamera(s) else s;
      var chosen := stopped.(currentFile := Some(f));
      if readable
      then chosen.(previewShown := true, placeholderShown := false, analyzeShown := true, resultShown := false)
      else chosen
  }

  // ---------------------------------------------------------------------------
  // Analysis

  /** `if (result.info)`: the panel's nine texts are written and the panel shown
      only when an information record came; otherwise the panel is left alone. */
  function ShowPanel(s: ClientState, info: Option<map<string, string>>): (r: ClientState)
    ensures info.Some? ==> r == s.(infoShown := true, panelInfo := info)
    ensures info.None? ==> r == s
  {
    match info
    case None => s
    case Some(_) => s.(infoShown := true, panelInfo := info)
  }

  /** The body of `predict`'s `try`/`catch`: the result area's texts for the
      outcome, and on success the breed panel, the overlay and the analytics
      record of `file`. The camera, the current file and the buttons are untouched. */
  function ShowOutcome(s: ClientState, p: Prediction, timestamp: string, file: File): (r: ClientState)
    ensures p.Predicted? ==>
              && r.breedText == p.breed
              && r.confidenceText == Decimal.Percent(p.confidence)
              && (Truthy(p.gradcam) ==> r.overlay == p.gradcam)
              && (!Truthy(p.gradcam) ==> r.overlay == s.overlay)
              && r.analytics == Analytics.Record(s.analytics, p.breed, p.confidence, timestamp, file)
    ensures p.Predicted? && p.info.Some? ==> r.panelInfo == p.info && r.infoShown
    ensures p.Predicted? && p.info.None? ==> r.panelInfo == s.panelInfo && r.infoShown == s.infoShown
    ensures p.PredictionFailed? ==>
              && r.breedText == ErrorHeading
              && r.confidenceText == p.message
              && r.infoShown == s.infoShown
              && r.panelInfo == s.panelInfo
              && r.overlay == s.overlay
              && r.analytics == s.analytics
    ensures r == s.(breedText := r.breedText, confidenceText := r.confidenceText, infoShown := r.infoShown,
                    panelInfo := r.panelInfo, overlay := r.overlay, analytics := r.analytics)
  {
    match p
    case PredictionFailed(m) => s.(breedText := ErrorHeading, confidenceText := m)
    case Predicted(breed, confidence, info, gradcam) =>
      ShowPanel(s, info).(
         breedText := breed,
         confidenceText := Decimal.Percent(confidence),
         overlay := if Truthy(gradcam) then gradcam else s.overlay,
         analytics := Analytics.Record(s.analytics, breed, confidence, timestamp, file))
  }

  /** The analyze button: `predict(currentFile)` when there is a current file,
      nothing otherwise. Only a successful prediction reaches the analytics. */
  function Analyze(s: ClientState, reply: Reply, timestamp: string): (r: ClientState)
    ensures s.currentFile.None? ==> r == s
    ensures s.currentFile.Some? ==>
              && r.resultShown && !r.analyzeShown && !r.loaderShown && r.contentShown
              && r.currentFile == s.currentFile && r.cameraActive == s.cameraActive
              && r.stream == s.stream && r.videoShown == s.videoShown
              && r.captureShown == s.captureShown && r.banner == s.banner
    ensures s.currentFile.Some? ==>
              r == s.(analyzeShown := false, resultShown := true, loaderShown := false, contentShown := true,
                      infoShown := r.infoShown, breedText := r.breedText, confidenceText := r.confidenceText,
                      panelInfo := r.panelInfo, overlay := r.overlay, analytics := r.analytics)
    ensures s.currentFile.Some? && Classify(reply).Predicted? ==>
              var p := Classify(reply);
              && r.breedText == p.breed
              && r.confidenceText == Decimal.Percent(p.confidence)
              && r.infoShown == p.info.Some?
              && (p.info.Some? ==> r.panelInfo == p.info)
              && (p.info.None? ==> r.panelInfo == s.panelInfo)
              && (Truthy(p.gradcam) ==> r.overlay == p.gradcam)
              && (!Truthy(p.gradcam) ==> r.overlay == s.overlay)
              && r.analytics == Analytics.Record(s.analytics, p.breed, p.confidence, timestamp, s.currentFile.value)
    ensures s.currentFile.Some? && Classify(reply).PredictionFailed? ==>
              && r.breedText == ErrorHeading
              && r.confidenceText == Classify(reply).message
              && !r.infoShown
              && r.panelInfo == s.panelInfo
              && r.overlay == s.overlay
              && r.analytics == s.analytics
  {
    match s.currentFile
    case None => s
    case Some(f) =>
      var pending := s.(analyzeShown := false, resultShown := true, loaderShown := true,
                        contentShown := false, infoShown := false);
      var answered := ShowOutcome(pending, Classify(reply), timestamp, f);
      answered.(loaderShown := false, contentShown := true)
  }

  // ---------------------------------------------------------------------------
  // The page as a state machine

  datatype Event =
    | CameraButton(access: CameraAccess)
    | CaptureButton(frame: bool)
    | FileChosen(file: Option<File>, readable: bool)
    | AnalyzeButton(reply: Reply, timestamp: string)

  /** The page's listeners: each click or file choice runs its handler. The
      analyze click does nothing without a current file, and only an analysis
      can touch the analytics. */
  function Step(s: ClientState, e: Event): (r: ClientState)
    ensures e.AnalyzeButton? && s.currentFile.None? ==> r == s
    ensures e.FileChosen? && e.file.None? ==> r == s
    ensures !e.AnalyzeButton? ==> r.analytics == s.analytics
    ensures e.CameraButton? ==> r == ToggleCamera(s, e.access)
    ensures e.CaptureButton? ==> r == Capture(s, e.frame)
    ensures e.FileChosen? ==> r == HandleFile(s, e.file, e.readable)
    ensures e.AnalyzeButton? ==> r == Analyze(s, e.reply, e.timestamp)
  {
    match e
    case CameraButton(access) => ToggleCamera(s, access)
    case CaptureButton(frame) => Capture(s, frame)
    case FileChosen(file, readable) => HandleFile(s, file, readable)
    case AnalyzeButton(reply, timestamp) => Analyze(s, reply, timestamp)
  }

  function Run(s: ClientState, events: seq<Event>): ClientState
    decreases |events|
  {
    if |events| == 0 then s else Run(Step(s, events[0]), events[1..])
  }

  /** Whether the event is an analysis that succeeds. */
  predicate RecordsClassification(s: ClientState, e: Event) {
    e.AnalyzeButton? && s.currentFile.Some? && Classify(e.reply).Predicted?
  }

  lemma InitialWf()
    ensures Wf(Initial)
  {
    Analytics.EmptyValid();
  }

  /** Agreement of the camera flags, stated apart from the analytics. */
  predicate CameraAgrees(s: ClientState) {
    && (s.cameraActive <==> s.stream.Some?)
    && (s.cameraActive <==> s.videoShown)
    && (s.cameraActive <==> s.captureShown)
  }

  lemma ToggleCameraKeepsAgreement(s: ClientState, access: CameraAccess)
    requires CameraAgrees(s)
    ensures CameraAgrees(ToggleCamera(s, access))
    ensures ToggleCamera(s, access).analytics == s.analytics
  {
  }

  lemma CaptureKeepsAgreement(s: ClientState, frame: bool)
    requires CameraAgrees(s)
    ensures CameraAgrees(Capture(s, frame))
    ensures Capture(s, frame).analytics == s.analytics
  {
  }

  lemma HandleFileKeepsAgreement(s: ClientState, file: Option<File>, readable: bool)
    requires CameraAgrees(s)
    ensures CameraAgrees(HandleFile(s, file, readable))
    ensures HandleFile(s, file, readable).analytics == s.analytics
  {
  }

  lemma AnalyzeKeepsWf(s: ClientState, reply: Reply, timestamp: string)
    requires Wf(s)
    ensures Wf(Analyze(s, reply, timestamp))
  {
    var p := Classify(reply);
    if s.currentFile.Some? && p.Predicted? {
      Analytics.RecordPreservesValid(s.analytics, p.breed, p.confidence, timestamp, s.currentFile.value);
    }
  }

  /** Every handler keeps the camera flags in agreement and the analytics valid. */
  lemma StepPreservesWf(s: ClientState, e: Event)
    requires Wf(s)
    ensures Wf(Step(s, e))
  {
    match e
    case CameraButton(access) => ToggleCameraKeepsAgreement(s, access);
    case CaptureButton(frame) => CaptureKeepsAgreement(s, frame);
    case FileChosen(file, readable) => HandleFileKeepsAgreement(s, file, readable);
    case AnalyzeButton(reply, timestamp) => AnalyzeKeepsWf(s, reply, timestamp);
  }

  lemma {:induction false} RunPreservesWf(s: ClientState, events: seq<Event>)
    requires Wf(s)
    ensures Wf(Run(s, events))
    decreases |events|
  {
    if |events| > 0 {
      StepPreservesWf(s, events[0]);
      RunPreservesWf(Step(s, events[0]), events[1..]);
    }
  }

  /** The analytics change on exactly the successful analyses, and then by one record. */
  lemma AnalyticsChangeOnlyOnSuccess(s: ClientState, e: Event)
    ensures Step(s, e).analytics != s.analytics <==> RecordsClassification(s, e)
    ensures RecordsClassification(s, e) ==>
              Step(s, e).analytics.total == s.analytics.total + 1
  {
  }

  /** The number of successful analyses along a run. */
  function Successes(s: ClientState, events: seq<Event>): nat
    decreases |events|
  {
    if |events| == 0 then 0
    else (if RecordsClassification(s, events[0]) then 1 else 0) + Successes(Step(s, events[0]), events[1..])
  }

  /** Along any run from a valid page, the classification count grows by the number
      of successful analyses, and the log stays as long as the count. */
  lemma {:induction false} RunCountsSuccesses(s: ClientState, events: seq<Event>)
    requires Wf(s)
    ensures Run(s, events).analytics.total == s.analytics.total + Successes(s, events)
    ensures |Run(s, events).analytics.logs| == Run(s, events).analytics.total
    decreases |events|
  {
    if |events| == 0 {
      assert Wf(s);
    } else {
      var next := Step(s, events[0]);
      AnalyticsChangeOnlyOnSuccess(s, events[0]);
      StepPreservesWf(s, events[0]);
      RunCountsSuccesses(next, events[1..]);
    }
  }

  // ---------------------------------------------------------------------------
  // Properties of the handlers

  /** Stopping the camera twice is stopping it once. */
  lemma StopCameraIdempotent(s: ClientState)
    ensures StopCamera(StopCamera(s)) == StopCamera(s)
  {
  }

  /** Repeated refusals of the camera leave the page with one and the same banner.
      The page's `showCameraError` removes any banner already present before appending
      the new one; the single `banner` slot stands for that remove-then-append, so
      this holds by construction of the state. */
  lemma RepeatedRefusalOneBanner(s: ClientState)
    ensures StartCamera(StartCamera(s, Refused), Refused) == StartCamera(s, Refused)
  {
  }

  /** The capture path as written: after a successful capture the analyze button
      is shown, but there is no current file, so clicking it does nothing. */
  lemma CaptureThenAnalyzeDoesNothing(s: ClientState, reply: Reply, timestamp: string)
    requires s.videoShown
    ensures var c := Capture(s, true);
            && c.analyzeShown && c.currentFile.None?
            && Analyze(c, reply, timestamp) == c
  {
  }

  /** A chosen file stays current even when the camera was running, and it is the
      image the next successful analysis logs. */
  lemma ChosenFileIsAnalyzed(s: ClientState, f: File, readable: bool, reply: Reply, timestamp: string)
    ensures var u := HandleFile(s, Some(f), readable);
            && u.currentFile == Some(f)
            && (Classify(reply).Predicted? ==> Analyze(u, reply, timestamp).analytics.logs[0].image == f)
  {
  }

  /** Upload an image, analyze it, and the service answers Jersey at 0.8734. */
  lemma UploadAndAnalyzeExample(f: File, timestamp: string)
    ensures var reply := Received(true, Parsed(ReplyBody(Some("Jersey"), 8734, None, None, None)));
            var s := Analyze(HandleFile(Initial, Some(f), true), reply, timestamp);
            && s.breedText == "Jersey"
            && s.confidenceText == "87.34%"
            && s.analytics.total == 1
            && Analytics.AverageText(s.analytics) == Some("87.34%")
            && s.analytics.logs == [Analytics.LogEntry("Jersey", 8734, timestamp, f)]
  {
    Analytics.JerseyExample(timestamp, f);
  }

  /** The service answers 500 with an error message: the message is shown as is
      and the analytics do not move. */
  lemma ServiceErrorExample(s: ClientState, timestamp: string)
    requires s.currentFile.Some?
    ensures var reply := Received(false, Parsed(ReplyBody(None, 0, None, None, Some("model unavailable"))));
            var r := Analyze(s, reply, timestamp);
            && r.breedText == "Error"
            && r.confidenceText == "model unavailable"
            && r.analytics == s.analytics
  {
  }

  /** Turn the camera on and capture a frame: the camera is released, the still
      is previewed, the analyze button is offered, and no image is current. */
  lemma CameraCaptureExample(st: Stream)
    ensures var r := Run(Initial, [CameraButton(Granted(st)), CaptureButton(true)]);
            && !r.cameraActive && r.stream.None? && !r.videoShown
            && r.previewShown && r.analyzeShown && !r.resultShown
            && r.currentFile.None?
  {
    var events := [CameraButton(Granted(st)), CaptureButton(true)];
    var on := Step(Initial, events[0]);
    assert on.videoShown;
    assert events[1..] == [CaptureButton(true)];
    assert Run(Initial, events) == Run(on, [CaptureButton(true)]);
    assert Run(on, [CaptureButton(true)]) == Run(Capture(on, true), []);
  }
}

=== FILE: decimal.dfy ===
/** Decimal text for the confidence figures the dashboard shows.

    A confidence is carried as a whole number of hundredths of a percent, so
    `(x * 100).toFixed(2)` of the source is exactly `Fixed2` of that number: the
    integer part in plain decimal, a point, and two fractional digits. */
module Decimal {
  import opened Wrappers

  predicate IsDigit(c: char) {
    '0' <= c <= '9'
  }

  predicate AllDigits(s: string) {
    forall i :: 0 <= i < |s| ==> IsDigit(s[i])
  }

  function DigitChar(d: nat): (c: char)
    requires d < 10
    ensures IsDigit(c)
    ensures c as int - '0' as int == d
  {
    (d + '0' as int) as char
  }

  function DigitValue(c: char): (d: nat)
    requires IsDigit(c)
    ensures d < 10
  {
    c as int - '0' as int
  }

  /** The decimal numeral of `n`, most significant digit first, without leading zeros. */
  function FromNat(n: nat): (s: string)
    ensures |s| >= 1 && AllDigits(s)
    ensures |s| > 1 ==> s[0] != '0'
    decreases n
  {
    if n < 10 then [DigitChar(n)] else FromNat(n / 10) + [DigitChar(n % 10)]
  }

  /** The value of a string of decimal digits. */
  function ToNat(s: string): nat
    requires AllDigits(s)
    decreases |s|
  {
    if |s| == 0 then 0 else 10 * ToNat(s[..|s| - 1]) + DigitValue(s[|s| - 1])
  }

  lemma {:induction false} ToNatFromNat(n: nat)
    ensures ToNat(FromNat(n)) == n
    decreases n
  {
    if n >= 10 {
      var s := FromNat(n);
      assert s[..|s| - 1] == FromNat(n / 10);
      ToNatFromNat(n / 10);
    }
  }

  /** `toFixed(2)` of the number `h / 100`. */
  function Fixed2(h: nat): (s: string)
    ensures |s| >= 4 && s[|s| - 3] == '.'
    ensures AllDigits(s[..|s| - 3]) && IsDigit(s[|s| - 2]) && IsDigit(s[|s| - 1])
    ensures |s| > 4 ==> s[0] != '0'
  {
    FromNat(h / 100) + "." + [DigitChar(h % 100 / 10), DigitChar(h % 10)]
  }

  /** Reads back a numeral with exactly two fractional digits; `None` for anything else. */
  function ParseFixed2(s: string): (r: Option<nat>)
    ensures r.Some? ==> |s| >= 4 && s[|s| - 3] == '.'
  {
    if |s| >= 4 && s[|s| - 3] == '.' && AllDigits(s[..|s| - 3])
       && IsDigit(s[|s| - 2]) && IsDigit(s[|s| - 1])
    then Some(100 * ToNat(s[..|s| - 3]) + 10 * DigitValue(s[|s| - 2]) + DigitValue(s[|s| - 1]))
    else None
  }

  /** The two-decimal text loses nothing: it reads back as the same number of hundredths. */
  lemma ParseFixed2Fixed2(h: nat)
    ensures ParseFixed2(Fixed2(h)) == Some(h)
  {
    var s := Fixed2(h);
    assert s[..|s| - 3] == FromNat(h / 100);
    ToNatFromNat(h / 100);
  }

  /** Two different confidences never show the same text. */
  lemma Fixed2Injective(a: nat, b: nat)
    requires Fixed2(a) == Fixed2(b)
    ensures a == b
  {
    ParseFixed2Fixed2(a);
    ParseFixed2Fixed2(b);
  }

  /** The text of a percentage as the dashboard shows it, e.g. `87.34%`. */
  function Percent(h: nat): (s: string)
    ensures |s| >= 5 && s[|s| - 1] == '%'
    ensures ParseFixed2(s[..|s| - 1]) == Some(h)
    ensures |s| > 5 ==> s[0] != '0'
  {
    ParseFixed2Fixed2(h);
    var s := Fixed2(h) + "%";
    assert s[..|s| - 1] == Fixed2(h);
    s
  }

  /** The worked example of a confidence of 0.8734. */
  lemma PercentExample()
    ensures Percent(8734) == "87.34%"
  {
    assert FromNat(8) == "8";
    assert FromNat(87) == "87";
  }
}

=== FILE: exchange.dfy ===
/** The service's reply as the page receives it: the JSON body the endpoint
    returns, read by the page's `predict`. This ties what the server promises to
    what the dashboard then shows and records. */
module Exchange {
  import opened Wrappers
  import Server
  import Client
  import Analytics

  /** The body as `response.json()` reads it. An error body carries no
      confidence; the page never reads one on that path, so it reads as 0. The
      framework's error page is not JSON: parsing it throws, with `parseError` (the
      browser's own message) as the error's message. */
  function BodyOf(body: Server.Body, parseError: string): (b: Client.BodyOutcome)
    ensures body.ErrorPage? <==> b.Unreadable?
    ensures body.ErrorPage? ==> b.message == parseError
    ensures body.ErrorBody? ==>
              && b.json.breed.None? && b.json.info.None? && b.json.gradcam.None?
              && b.json.error == Some(body.error)
    ensures body.PredictionBody? ==>
              && b.json.breed == Some(body.breed) && b.json.confidence == body.confidence
              && b.json.info == Some(body.info) && b.json.gradcam == body.gradcam && b.json.error.None?
  {
    match body
    case ErrorPage => Client.Unreadable(parseError)
    case ErrorBody(e) => Client.Parsed(Client.ReplyBody(None, 0, None, None, Some(e)))
    case PredictionBody(breed, confidence, info, gradcam) =>
      Client.Parsed(Client.ReplyBody(Some(breed), confidence, Some(info), gradcam, None))
  }

  /** `fetch` resolves with the response: `ok` for a 2xx status. */
  function Deliver(r: Server.Response, parseError: string): (reply: Client.Reply)
    ensures reply.Received?
    ensures reply.ok <==> 200 <= r.status < 300
    ensures reply.body.Parsed? <==> !r.body.ErrorPage?
  {
    Client.Received(200 <= r.status < 300, BodyOf(r.body, parseError))
  }

  /** The page counts a reply as a success exactly when the server classified the
      image and the breed label is not empty. */
  lemma SuccessAgrees(req: Server.Request, secure: string -> string, inference: Server.Inference,
                      heatmap: Server.Heatmap, db: map<string, Server.BreedInfo>, parseError: string)
    ensures var r := Server.ClassifyBreed(req, secure, inference, heatmap, db);
            Client.Classify(Deliver(r, parseError)).Predicted? <==>
              && Server.Accepted(req) && Server.SavedName(req, secure) != ""
              && inference.Inferred? && inference.breed != ""
  {
  }

  /** Whatever the server rejects, the page shows the server's own message, or
      "Prediction failed" when that message is empty, or the parse error when the
      reply is the framework's error page; it records nothing. */
  lemma ServerErrorShownOnPage(s: Client.ClientState, req: Server.Request, secure: string -> string,
                               inference: Server.Inference, heatmap: Server.Heatmap,
                               db: map<string, Server.BreedInfo>, parseError: string, timestamp: string)
    requires s.currentFile.Some?
    requires Server.ClassifyBreed(req, secure, inference, heatmap, db).status != 200
    ensures var r := Server.ClassifyBreed(req, secure, inference, heatmap, db);
            var page := Client.Analyze(s, Deliver(r, parseError), timestamp);
            && page.breedText == Client.ErrorHeading
            && page.confidenceText == (if r.body.ErrorPage? then parseError
                                       else if r.body.error != "" then r.body.error
                                       else Client.GenericFailure)
            && page.analytics == s.analytics
  {
  }

  /** An upload whose name `secure_filename` cleans away entirely never gets a
      JSON answer: the page shows the browser's parse error, not a server
      message, and records nothing. */
  lemma UnsavableNameShownAsParseError(s: Client.ClientState, req: Server.Request, secure: string -> string,
                                       inference: Server.Inference, heatmap: Server.Heatmap,
                                       db: map<string, Server.BreedInfo>, parseError: string, timestamp: string)
    requires s.currentFile.Some? && Server.Accepted(req) && Server.SavedName(req, secure) == ""
    ensures var page := Client.Analyze(s, Deliver(Server.ClassifyBreed(req, secure, inference, heatmap, db), parseError), timestamp);
            && page.breedText == Client.ErrorHeading
            && page.confidenceText == parseError
            && page.analytics == s.analytics
  {
  }

  /** A request without a file part shows "No file uploaded" on the page. */
  lemma MissingFileShownOnPage(s: Client.ClientState, req: Server.Request, secure: string -> string,
                               inference: Server.Inference, heatmap: Server.Heatmap,
                               db: map<string, Server.BreedInfo>, parseError: string, timestamp: string)
    requires s.currentFile.Some? && Server.FilePart !in req.files
    ensures Client.Analyze(s, Deliver(Server.ClassifyBreed(req, secure, inference, heatmap, db), parseError),
                           timestamp).confidenceText
            == Server.NoFileUploaded
  {
  }

  /** A classification the server makes is the one the page shows and records;
      the panel shows the server's record and the overlay is replaced exactly when
      one was sent. */
  lemma ServerSuccessRecordedOnPage(s: Client.ClientState, req: Server.Request, secure: string -> string,
                                    breed: string, confidence: nat, heatmap: Server.Heatmap,
                                    db: map<string, Server.BreedInfo>, parseError: string, timestamp: string)
    requires s.currentFile.Some? && Server.Accepted(req) && Server.SavedName(req, secure) != "" && breed != ""
    ensures var r := Server.ClassifyBreed(req, secure, Server.Inferred(breed, confidence), heatmap, db);
            var page := Client.Analyze(s, Deliver(r, parseError), timestamp);
            && page.breedText == breed
            && page.infoShown && page.panelInfo == Some(Server.InfoFor(db, breed))
            && (heatmap.Encoded? && heatmap.dataUri != "" ==> page.overlay == Some(heatmap.dataUri))
            && (!(heatmap.Encoded? && heatmap.dataUri != "") ==> page.overlay == s.overlay)
            && page.analytics == Analytics.Record(s.analytics, breed, confidence, timestamp, s.currentFile.value)
  {
  }

  /** A record that gives none of the panel's fields a text of its own leaves
      every field of the panel reading "N/A". */
  lemma PanelAllNA(info: Server.BreedInfo)
    requires forall i :: 0 <= i < |Client.InfoFields| && Client.InfoFields[i] in info ==>
               info[Client.InfoFields[i]] in {"", "N/A"}
    ensures |Client.InfoText(info)| == |Client.InfoFields|
    ensures forall i :: 0 <= i < |Client.InfoFields| ==> Client.InfoText(info)[i] == "N/A"
  {
  }

  /** For a breed the database does not know, every field of the panel reads "N/A". */
  lemma UnknownBreedPanelAllNA()
    ensures forall i :: 0 <= i < |Client.InfoFields| ==> Client.InfoText(Server.DefaultInfo)[i] == "N/A"
  {
    var info := Server.DefaultInfo;
    assert "farmer_look_for" !in Client.InfoFields;
    assert "uniqueness" !in Client.InfoFields;
    PanelAllNA(info);
  }
}

=== FILE: files.dfy ===
/** The image the dashboard holds as its "current file": a browser `File`,
    reduced to the name and media type the source sets or reads. */
module Files {

  datatype File = File(name: string, mimeType: string)

  /** The file a camera capture produces (name and type fixed by the capture code). */
  const CapturedFile: File := File("camera-capture.jpg", "image/jpeg")
}

=== FILE: head.dfy ===
/** The classifier head `build_model` puts on the image backbone: its layer
    widths, and the rule that sizes the bottleneck from the number of classes.
    The backbone itself is opaque; only its feature width enters. */
module Head {
  import opened Wrappers

  /** Layers of the head; the dropout rate is in percent. */
  datatype Layer =
    | Linear(inFeatures: nat, outFeatures: nat)
    | BatchNorm1d(features: nat)
    | Relu
    | Dropout(percent: nat)

  const DefaultClasses: nat := 41
  const MinBottleneck: nat := 128
  const MaxBottleneck: nat := 512
  const WidthPerClass: nat := 8
  const DropoutPercent: nat := 40

  function Max(a: int, b: int): int {
    if a >= b then a else b
  }

  function Min(a: int, b: int): int {
    if a <= b then a else b
  }

  /** `max(128, min(512, num_classes * 8))`: eight units per class, clamped to
      between 128 and 512. */
  function DefaultBottleneck(numClasses: nat): (w: nat)
    ensures MinBottleneck <= w <= MaxBottleneck
    ensures numClasses < 16 ==> w == MinBottleneck
    ensures 16 <= numClasses <= 64 ==> w == numClasses * WidthPerClass
    ensures numClasses > 64 ==> w == MaxBottleneck
  {
    Max(MinBottleneck, Min(MaxBottleneck, numClasses * WidthPerClass))
  }

  /** More classes never give a narrower bottleneck. */
  lemma DefaultBottleneckMonotone(a: nat, b: nat)
    requires a <= b
    ensures DefaultBottleneck(a) <= DefaultBottleneck(b)
  {
  }

  /** The default of 41 classes gets a bottleneck of 328. */
  lemma DefaultClassesBottleneck()
    ensures DefaultBottleneck(DefaultClasses) == 328
  {
  }

  /** The width used: an explicit bottleneck as given, unclamped; otherwise the default rule. */
  function BottleneckWidth(numClasses: nat, bottleneck: Option<nat>): (w: nat)
    ensures bottleneck.Some? ==> w == bottleneck.value
    ensures bottleneck.None? ==> w == DefaultBottleneck(numClasses)
  {
    match bottleneck
    case Some(b) => b
    case None => DefaultBottleneck(numClasses)
  }

  /** The width a stack of layers produces from an input of `width` features;
      `None` where a layer's expected input width does not match. */
  function Propagate(layers: seq<Layer>, width: nat): Option<nat>
    decreases |layers|
  {
    if |layers| == 0 then Some(width)
    else
      match layers[0]
      case Linear(i, o) => if width == i then Propagate(layers[1..], o) else None
      case BatchNorm1d(f) => if width == f then Propagate(layers[1..], width) else None
      case Relu => Propagate(layers[1..], width)
      case Dropout(_) => Propagate(layers[1..], width)
  }

  /** The head `nn.Sequential`: linear to the bottleneck, batch norm, ReLU, dropout,
      linear to the classes. */
  function BuildHead(featDim: nat, numClasses: nat, bottleneck: Option<nat>): (head: seq<Layer>)
    ensures |head| == 5
    ensures head[0].Linear? && head[0].inFeatures == featDim && head[1].BatchNorm1d?
    ensures head[4].Linear? && head[4].outFeatures == numClasses
    ensures head[0].outFeatures == head[1].features == head[4].inFeatures == BottleneckWidth(numClasses, bottleneck)
    ensures head[2] == Relu && head[3] == Dropout(DropoutPercent)
  {
    var w := BottleneckWidth(numClasses, bottleneck);
    [Linear(featDim, w), BatchNorm1d(w), Relu, Dropout(DropoutPercent), Linear(w, numClasses)]
  }

  /** The head accepts exactly the backbone's feature width, passes through the
      bottleneck, and produces one score per class. */
  lemma HeadShape(featDim: nat, numClasses: nat, bottleneck: Option<nat>, input: nat)
    ensures var head := BuildHead(featDim, numClasses, bottleneck);
            && Propagate(head[..1], featDim) == Some(BottleneckWidth(numClasses, bottleneck))
            && Propagate(head, featDim) == Some(numClasses)
            && (Propagate(head, input).Some? <==> input == featDim)
  {
    var head := BuildHead(featDim, numClasses, bottleneck);
    var w := BottleneckWidth(numClasses, bottleneck);
    var t1 := [BatchNorm1d(w), Relu, Dropout(DropoutPercent), Linear(w, numClasses)];
    var t2 := [Relu, Dropout(DropoutPercent), Linear(w, numClasses)];
    var t3 := [Dropout(DropoutPercent), Linear(w, numClasses)];
    var t4 := [Linear(w, numClasses)];
    assert head[1..] == t1 && t1[1..] == t2 && t2[1..] == t3 && t3[1..] == t4 && t4[1..] == [];
    assert Propagate(t4, w) == Some(numClasses);
    assert Propagate(t3, w) == Propagate(t4, w);
    assert Propagate(t2, w) == Propagate(t3, w);
    assert Propagate(t1, w) == Propagate(t2, w);
    assert head[..1][1..] == [];
  }
}

=== FILE: server.dfy ===
/** The `/predict` endpoint of the classification service: request validation
    and the shape of the reply. `secure_filename` is a parameter; decoding the
    image, the network's forward pass and the Grad-CAM heat map are abstract
    outcomes. */
module Server {
  import opened Wrappers

  /** A file part of a multipart request; only its filename is inspected. */
  datatype Upload = Upload(filename: string)

  /** The file parts of a request, by form field name. */
  datatype Request = Request(files: map<string, Upload>)

  /** Saving, decoding and classifying the upload: the predicted breed and its
      confidence (hundredths of a percent, the value `round(confidence, 4)`
      stands for), or the message of the exception one of the steps raised. */
  datatype Inference = Inferred(breed: string, confidence: nat) | Raised(message: string)

  /** Grad-CAM: gave no map, raised, or produced the encoded overlay. */
  datatype Heatmap = NoHeatmap | HeatmapFailed(message: string) | Encoded(dataUri: string)

  /** A breed-information record, field name to text. */
  type BreedInfo = map<string, string>

  const FilePart: string := "file"
  const NoFileUploaded: string := "No file uploaded"
  const EmptyFilename: string := "Empty filename"

  /** The record sent for a breed the information database does not know. */
  const DefaultInfo: BreedInfo := map[
    "origin" := "N/A",
    "farmer_look_for" := "No detailed information available for this breed in the database.",
    "uniqueness" := "N/A"]

  /** A JSON error, a JSON prediction, or the framework's own error page (not
      JSON), sent when an exception escapes the handler. */
  datatype Body =
    | ErrorBody(error: string)
    | PredictionBody(breed: string, confidence: nat, info: BreedInfo, gradcam: Option<string>)
    | ErrorPage

  datatype Response = Response(status: nat, body: Body)

  /** `breed_info_db.get(breed, default)`. */
  function InfoFor(db: map<string, BreedInfo>, breed: string): (info: BreedInfo)
    ensures breed in db ==> info == db[breed]
    ensures breed !in db ==> info == DefaultInfo
  {
    if breed in db then db[breed] else DefaultInfo
  }

  /** The request passes both checks: a file part that has a non-empty filename. */
  predicate Accepted(req: Request) {
    FilePart in req.files && req.files[FilePart].filename != ""
  }

  /** The upload's name once `secure` (the role of `secure_filename`) has
      cleaned it. */
  function SavedName(req: Request, secure: string -> string): string
    requires FilePart in req.files
  {
    secure(req.files[FilePart].filename)
  }

  /** The overlay to send: only a produced, non-empty encoding. */
  function OverlayOf(heatmap: Heatmap): (g: Option<string>)
    ensures g.Some? <==> heatmap.Encoded? && heatmap.dataUri != ""
    ensures g.Some? ==> g.value == heatmap.dataUri
  {
    match heatmap
    case Encoded(uri) => if uri != "" then Some(uri) else None
    case _ => None
  }

  /** `classify_breed`. A name that `secure` cleans away entirely makes the
      save path the upload directory itself: the save raises, and the `finally`
      then tries to remove that existing directory, which raises too and
      replaces the pending JSON 500, so the framework answers with its error page. */
  function ClassifyBreed(req: Request, secure: string -> string, inference: Inference, heatmap: Heatmap,
                         db: map<string, BreedInfo>): (r: Response)
    ensures FilePart !in req.files ==> r == Response(400, ErrorBody(NoFileUploaded))
    ensures FilePart in req.files && req.files[FilePart].filename == "" ==>
              r == Response(400, ErrorBody(EmptyFilename))
    ensures Accepted(req) && SavedName(req, secure) == "" ==> r == Response(500, ErrorPage)
    ensures Accepted(req) && SavedName(req, secure) != "" && inference.Raised? ==>
              r == Response(500, ErrorBody(inference.message))
    ensures r.status in {200, 400, 500}
    ensures r.status == 200 <==> Accepted(req) && SavedName(req, secure) != "" && inference.Inferred?
    ensures r.body.PredictionBody? <==> r.status == 200
    ensures r.body.ErrorPage? <==> Accepted(req) && SavedName(req, secure) == ""
    ensures r.status == 200 ==>
              && r.body.breed == inference.breed
              && r.body.confidence == inference.confidence
              && r.body.info == InfoFor(db, inference.breed)
              && (r.body.gradcam.Some? <==> heatmap.Encoded? && heatmap.dataUri != "")
              && (r.body.gradcam.Some? ==> r.body.gradcam.value == heatmap.dataUri)
  {
    if FilePart !in req.files then Response(400, ErrorBody(NoFileUploaded))
    else if req.files[FilePart].filename == "" then Response(400, ErrorBody(EmptyFilename))
    else if SavedName(req, secure) == "" then Response(500, ErrorPage)
    else
      match inference
      case Raised(message) => Response(500, ErrorBody(message))
      case Inferred(breed, confidence) =>
        Response(200, PredictionBody(breed, confidence, InfoFor(db, breed), OverlayOf(heatmap)))
  }

  /** Grad-CAM decides nothing but the `gradcam` key: whatever it does, the status,
      breed, confidence and info are the same. */
  lemma HeatmapOnlyDecidesOverlay(req: Request, secure: string -> string, inference: Inference,
                                  h1: Heatmap, h2: Heatmap, db: map<string, BreedInfo>)
    ensures var r1 := ClassifyBreed(req, secure, inference, h1, db);
            var r2 := ClassifyBreed(req, secure, inference, h2, db);
            && r1.status == r2.status
            && (!r1.body.PredictionBody? ==> r1.body == r2.body)
            && (r1.body.PredictionBody? ==> r1.body.(gradcam := r2.body.gradcam) == r2.body)
  {
  }

  /** The information sent for a breed the database does not know. */
  lemma UnknownBreedGetsDefault(req: Request, secure: string -> string, breed: string, confidence: nat,
                                heatmap: Heatmap, db: map<string, BreedInfo>)
    requires Accepted(req) && SavedName(req, secure) != "" && breed !in db
    ensures ClassifyBreed(req, secure, Inferred(breed, confidence), heatmap, db).body.info["origin"] == "N/A"
    ensures ClassifyBreed(req, secure, Inferred(breed, confidence), heatmap, db).body.info.Keys
            == {"origin", "farmer_look_for", "uniqueness"}
  {
  }
}

=== FILE: wrappers.dfy ===
/** The optional-value datatype shared by the client, server and head models:
    JavaScript's `null`/`undefined` and Python's `None` both become `None`. */
module Wrappers {

  datatype Option<+T> = None | Some(value: T)
}
